=== FILE: README.md ===
# Disk statistics validator, modelled in Dafny

`completed/disk_stats_test.py` checks that a Linux block device is visible to
the operating system and that its I/O statistics move under load. It works in
this order:

1. It normalises the `--disk-name` argument (default `sda`).
2. It skips NVDIMM devices (names containing `pmem`) with a configurable status.
3. It requires the name in `/proc/partitions` and in `/proc/diskstats`.
4. It requires a `/sys/block/<name>` entry and a non-empty `/sys/block/<name>/stat`.
5. It snapshots the device's `/proc/diskstats` line and its stat file.
6. It runs `hdparm -t /dev/<name>`, then snapshots again.
7. It passes only if both snapshots changed.

The model is three modules:

- `PyStrings` (`py_strings.dfy`) holds the two Python string operations the
  script relies on: `sub in s` (`Contains`) and `str.strip(chars)` (`Strip`,
  built from `StripLeading` and `StripTrailing`).
- `DiskStats` (`disk_stats.dfy`) holds the validator.
  - The `Disk` object is the immutable value `Disk(diskName, status)`.
  - What the script reads from the system is a record, `Env`:
    - the lines of `/proc/partitions` and `/proc/diskstats`, or `None` when a file is missing;
    - whether `/sys/block/<name>` exists;
    - the size of the stat file;
    - which of three results `hdparm` gave;
    - the two `/proc/diskstats` line lists and the two stat-file contents seen at the snapshots.
  - Every `sys.exit` becomes a returned `Outcome`: `Skip(status, message)` (exit with the configured status) or `Fail(message)` (exit 1). The normal end of `main`, after the print at line 151, becomes `Pass(message)` (exit 0).
  - Each check returns `Continue` or `Exit(outcome)`.
  - The script's loops are methods with loop invariants. `DiskInFile` and `ProcStats` scan a file's lines. `RunValidate` loops over the dictionary of files.
  - Each method is proved equal to a specification function: `FileCheck`, `Snapshot`, `Validation`, `Statistics`, `Run` or `MainResult`.
  - `Validation` runs the five checks through `FirstUnmet`: the first check that ends the run decides its outcome.
- `DiskStatsProperties` (`disk_stats_properties.dfy`) proves properties of the whole run:
  - which outcome a run ends with, and for which inputs;
  - the order in which the checks decide;
  - the concrete scenarios (default `sda` passes, `pmem0` skips);
  - what the name normalisation does.

`sys_stats` (lines 108-112) reads the whole stat file. In the model it is the
fields `sysBefore` and `sysAfter` of `Env`.

The code disagrees with its own comment on one point. The comment at line 166
says the name loses a leading "/dev/". Line 167 calls `strip("/dev/")`, which
removes the characters `/`, `d`, `e` and `v` from both ends. The model keeps
both:

- `DiskNameAsWritten` is line 167 as written. `MainResult` and `RunMain` use it, as the script does.
- `DiskName` removes a leading `/dev/` only. `MainResultIntended` uses it.
- `MainAgreesOnPlainNames` proves the two runs agree whenever the name neither begins nor ends with one of those characters, the empty name included. `MainChecksWrongDiskForVda` shows them parting on "vda".

See "## Findings".

## Model

| member | source | states |
|---|---|---|
| PyStrings.ContainsSubstring | completed/disk_stats_test.py:45-105 | `Contains` is Python's substring test `sub in s` (lines 45, 57 and 105): the empty string is in every string; any string placed between two others is in the result; a string longer than `s` is never in `s` |
| PyStrings.StripLeading | completed/disk_stats_test.py:167 | the result is a suffix of the input; every removed character is in the set; the result does not start with a set character |
| PyStrings.StripTrailing | completed/disk_stats_test.py:167 | the result is a prefix of the input; every removed character is in the set; the result does not end with a set character |
| PyStrings.Strip | completed/disk_stats_test.py:167 | `str.strip(chars)` returns a contiguous slice of the input; only set characters lie outside it; neither end of it is a set character |
| PyStrings.StripUnique | completed/disk_stats_test.py:167 | any slice that meets Strip's contract is Strip's result, so that contract defines `str.strip` completely |
| PyStrings.StripIdempotent | completed/disk_stats_test.py:166-167 | stripping the stripped name again changes nothing |
| DiskStats.DiskNameAsWritten | completed/disk_stats_test.py:157-167 | with no argument the name is "sda"; otherwise it is `Strip` of the argument with '/', 'd', 'e', 'v', so the name neither starts nor ends with one of them |
| DiskStats.DefaultNameSurvivesStrip | completed/disk_stats_test.py:161-167 | the default "sda" also goes through line 167's `strip("/dev/")` and comes out unchanged, so `DiskNameAsWritten` may return it directly |
| DiskStats.DiskName | completed/disk_stats_test.py:157-167 | the intended normalisation: "sda" by default; "/dev/" + name gives back name; an argument without "/dev/" is kept as is |
| DiskStats.CheckReturnCode | completed/disk_stats_test.py:30-40 | return code 0 lets the run go on; any other code ends it with `Fail(message)` and exit status 1 |
| DiskStats.IsNvdimm | completed/disk_stats_test.py:42-50 | the run goes on iff "pmem" is not a substring of the name; otherwise it skips with the configured status and the NVDIMM message |
| DiskStats.DiskInFile | completed/disk_stats_test.py:52-61 | the line scan goes on iff the file exists and some line contains the name; a missing file fails with "Error: <path> not found"; a file with no matching line fails with the caller's message |
| DiskStats.BlockExists | completed/disk_stats_test.py:63-71 | goes on iff /sys/block/<name> exists; otherwise fails with "Disk <name> not found in /sys/block" |
| DiskStats.BlockStatNotEmpty | completed/disk_stats_test.py:73-85 | goes on iff the stat file exists with size > 0; a zero size and a missing file fail with different messages |
| DiskStats.FirstUnmet | completed/disk_stats_test.py:87-99 | the run goes on iff every check goes on; otherwise the outcome is the first check, in order, that ends the run |
| DiskStats.FirstUnmetAt | completed/disk_stats_test.py:87-99 | the first unmet check in the list is the one that decides |
| DiskStats.RunValidate | completed/disk_stats_test.py:87-99 | the script's sequence (nvdimm, then the loop over /proc/partitions and /proc/diskstats, then /sys/block, then the stat file) stops at the first unmet check; it goes on iff all five checks pass |
| DiskStats.FirstMatch | completed/disk_stats_test.py:101-106 | returns the index of the first line, in file order, that contains the name; returns none iff no line contains it |
| DiskStats.ProcStats | completed/disk_stats_test.py:101-106 | the scan returns the first line containing the name, or Python's `None` iff there is none |
| DiskStats.GenerateActivity | completed/disk_stats_test.py:114-128 | goes on iff hdparm succeeds; a non-zero exit and a missing hdparm fail with different messages |
| DiskStats.Compare | completed/disk_stats_test.py:142-151 | an unchanged /proc/diskstats line fails citing /proc/diskstats, even if the stat file changed; otherwise an unchanged stat file fails citing /sys/block/<name>/stat; the comparison passes iff both changed, with a message naming the disk; it never skips |
| DiskStats.CollectStatistics | completed/disk_stats_test.py:130-151 | snapshot, hdparm, snapshot, compare; passes iff hdparm succeeded and both the first-matching /proc/diskstats line and the stat contents changed |
| DiskStats.RunMain | completed/disk_stats_test.py:154-171 | `main` ends with the outcome of validation followed by statistics, for status 0 and the name line 167 computes: "sda" with no argument, otherwise the argument stripped of '/', 'd', 'e', 'v' |
| DiskStatsProperties.ValidationOrder | completed/disk_stats_test.py:87-99 | whichever check is the first unmet one decides the outcome of the whole run |
| DiskStatsProperties.ValidationNeverPasses | completed/disk_stats_test.py:42-99 | validation can end a run only by skipping or failing; it skips iff the name contains "pmem" |
| DiskStatsProperties.NvdimmSkipsRegardless | completed/disk_stats_test.py:42-50 | a "pmem" name ends the run with the configured status, whatever the environment holds |
| DiskStatsProperties.SkipOnlyForNvdimm | completed/disk_stats_test.py:30-50 | a run skips iff the name contains "pmem" and then exits with the configured status; every other run exits 0 on a pass and 1 on a failure |
| DiskStatsProperties.AbsentFromPartitionsFails | completed/disk_stats_test.py:52-61 | a non-NVDIMM name missing from /proc/partitions, or a missing /proc/partitions, fails with the corresponding message, whatever the later sources hold |
| DiskStatsProperties.ValidationFailureDecides | completed/disk_stats_test.py:87-99 | once validation stops a run, hdparm and the snapshots cannot change the outcome |
| DiskStatsProperties.RunPassesIff | completed/disk_stats_test.py:87-151 | a run passes iff all of these hold: the name does not contain "pmem"; both /proc files contain it; the /sys/block entry exists; the stat file is non-empty; hdparm succeeds; the diskstats line changed; the stat contents changed |
| DiskStatsProperties.SnapshotPicksFirst | completed/disk_stats_test.py:101-106 | the snapshot is the first line, in file order, that contains the name |
| DiskStatsProperties.PrefixNameMatchesFirstLine | completed/disk_stats_test.py:101-106 | "sda" matches an earlier "sda1" line, because the test is substring containment |
| DiskStatsProperties.HealthySdaPasses | completed/disk_stats_test.py:87-151 | the disk "sda" passes when it is present everywhere, hdparm succeeds and both snapshots change |
| DiskStatsProperties.DefaultSdaPasses | completed/disk_stats_test.py:154-171 | with no argument on a healthy system, the run passes naming "sda" and exits 0 |
| DiskStatsProperties.Pmem0Skips | completed/disk_stats_test.py:42-50 | "pmem0" skips with status 0 for every environment |
| DiskStatsProperties.StripEmptiesVdd | completed/disk_stats_test.py:166-167 | as written, "/dev/vdd" normalises to the empty name |
| DiskStatsProperties.StripTruncatesSdd | completed/disk_stats_test.py:166-167 | as written, "/dev/sdd" normalises to "s" |
| DiskStatsProperties.StripTruncatesVda | completed/disk_stats_test.py:166-167 | as written, "vda" normalises to "a" |
| DiskStatsProperties.DiskNameRemovesDevPrefix | completed/disk_stats_test.py:166-167 | the corrected normalisation maps "/dev/" + name to name, and keeps any name without "/dev/" |
| DiskStatsProperties.MainAgreesOnPlainNames | completed/disk_stats_test.py:154-171 | for a name that neither starts nor ends with '/', 'd', 'e' or 'v', with or without "/dev/" in front, `main` as written and as intended end the same |
| DiskStatsProperties.MainChecksWrongDiskForVda | completed/disk_stats_test.py:166-171 | for "vda", `main` as written validates and measures the disk "a"; the intended normalisation keeps "vda" |
| DiskStatsProperties.NormalisationsAgree | completed/disk_stats_test.py:166-167 | when a name neither starts nor ends with '/', 'd', 'e' or 'v', the as-written and corrected normalisations agree, with or without "/dev/" in front |

## Left out

- The script reads files, calls `os.path.exists` and `os.path.getsize`, and runs `hdparm` as a subprocess. The model takes their results as fields of `Env`.
- The `Env` fields belong to the one disk name of the run. They are not indexed by path.
- The `hdparm` command line (`hdparm -t /dev/<name>`) is not modelled. Only its three results are: success, non-zero exit, not installed.
- `sleep(5)` is not modelled. Nor are the kernel counters; snapshots are opaque strings compared for equality.
- Argument parsing, printing to stdout/stderr and process termination are not modelled. Messages are kept inside the outcome. The exit status is `ExitStatus` of the outcome; the operating system's reduction of a status modulo 256 is not modelled.
- `proc_stats` and `sys_stats` assume their files exist and the script does not catch the error. If `/proc/diskstats` or the stat file vanishes between validation and a snapshot, the script ends with an uncaught exception. The model does not represent that.
- The model does not represent a file that exists but cannot be read (for example, a permission error). The script does not catch that either.
- `Disk.__init__`'s status parameter is only ever 0 in `main`. `Run` takes any status; `MainResult` and `RunMain` use 0.

## Findings

| source | as written | input that shows it | evidently intended | confidence | as-written member | corrected member |
|---|---|---|---|---|---|---|
| completed/disk_stats_test.py:166-167 | `strip("/dev/")` removes any of the characters '/', 'd', 'e', 'v' from both ends of the name | "/dev/vdd" becomes "" (also "/dev/sdd" becomes "s" and "vda" becomes "a") | remove a leading "/dev/" only, as the comment on line 166 says | high; not executed | DiskStatsProperties.StripEmptiesVdd | DiskStats.DiskName |

=== FILE: disk_stats.dfy ===
/**
 * The disk validator of completed/disk_stats_test.py: it checks that a block
 * device is visible in /proc/partitions, /proc/diskstats and /sys/block with
 * a non-empty stat file, runs `hdparm -t` against it, and passes only when
 * both the device's /proc/diskstats line and its /sys/block/<name>/stat
 * contents changed across the activity.
 *
 * Everything the script learns from the operating system is a field of `Env`;
 * every `sys.exit` is a returned `Outcome`.
 */
module DiskStats {
  import opened PyStrings

  datatype Option<T> = None | Some(value: T)

  /** How the run ends: the deliberate NVDIMM skip, a failure (exit 1) or a pass (exit 0). */
  datatype Outcome = Skip(status: int, message: string) | Fail(message: string) | Pass(message: string)

  /** The process exit status that an outcome terminates with. */
  function ExitStatus(o: Outcome): int
  {
    match o
    case Skip(status, _) => status
    case Fail(_) => 1
    case Pass(_) => 0
  }

  /** The result of one check: carry on, or end the run with an outcome. */
  datatype Check = Continue | Exit(outcome: Outcome)

  /** The configuration held by the script's `Disk` object; it is never updated. */
  datatype Disk = Disk(diskName: string, status: int)

  /** What running `hdparm -t /dev/<name>` can come to. */
  datatype HdparmRun = Succeeded | NonZeroExit | NotInstalled

  /**
   * What the operating system shows the script during one run. A file read
   * line by line is `None` when it does not exist.
   */
  datatype Env = Env(
    partitions: Option<seq<string>>,  // lines of /proc/partitions
    diskstats: Option<seq<string>>,   // lines of /proc/diskstats during validation
    blockExists: bool,                // whether /sys/block/<name> exists
    statSize: Option<nat>,            // size of /sys/block/<name>/stat, None when missing
    procBefore: seq<string>,          // lines of /proc/diskstats at the first snapshot
    sysBefore: string,                // contents of /sys/block/<name>/stat at the first snapshot
    hdparm: HdparmRun,                // what running hdparm came to
    procAfter: seq<string>,           // lines of /proc/diskstats at the second snapshot
    sysAfter: string)                 // contents of /sys/block/<name>/stat at the second snapshot

  const DefaultDiskName: string := "sda"
  const DefaultStatus: int := 0
  const NvdimmMarker: string := "pmem"
  const DevPrefix: string := "/dev/"
  /** The argument of `str.strip` at line 167: a set of characters, not a prefix. */
  const DevChars: set<char> := {'/', 'd', 'e', 'v'}
  const PartitionsPath: string := "/proc/partitions"
  const DiskstatsPath: string := "/proc/diskstats"

  // ---------------------------------------------------------------- names

  /** The disk name as line 167 computes it: the argument stripped of '/', 'd', 'e', 'v' at both ends. */
  function DiskNameAsWritten(arg: Option<string>): (name: string)
    ensures arg.None? ==> name == DefaultDiskName
    ensures arg.Some? ==> name == Strip(arg.value, DevChars)
    ensures name == [] || (name[0] !in DevChars && name[|name| - 1] !in DevChars)
  {
    match arg
    case Some(given) => Strip(given, DevChars)
    case None =>
      DefaultNameSurvivesStrip();
      DefaultDiskName
  }

  /** argparse's default "sda" also goes through line 167's strip, which leaves it as it is. */
  lemma DefaultNameSurvivesStrip()
    ensures Strip(DefaultDiskName, DevChars) == DefaultDiskName
  {
    assert OccursAt(DefaultDiskName, DefaultDiskName, 0);
    StripUnique(DefaultDiskName, DevChars, 0, DefaultDiskName);
  }

  /**
   * The disk name as the comment at line 166 intends it: the argument with a
   * leading "/dev/" removed, "sda" when no argument is given.
   */
  function DiskName(arg: Option<string>): (name: string)
    ensures arg.None? ==> name == DefaultDiskName
    ensures arg.Some? && DevPrefix <= arg.value ==> DevPrefix + name == arg.value
    ensures arg.Some? && !(DevPrefix <= arg.value) ==> name == arg.value
  {
    match arg
    case None => DefaultDiskName
    case Some(given) => if DevPrefix <= given then given[|DevPrefix|..] else given
  }

  function BlockPath(d: Disk): string
  {
    "/sys/block/" + d.diskName
  }

  function StatPath(d: Disk): string
  {
    BlockPath(d) + "/stat"
  }

  function NotFoundMessage(d: Disk, path: string): string
  {
    "Disk " + d.diskName + " not found in " + path
  }

  // ---------------------------------------------------------------- checks

  /** `check_return_code`: a zero code lets the run go on, any other ends it with exit status 1. */
  function CheckReturnCode(returnCode: int, errMessage: string): (c: Check)
    ensures c.Continue? <==> returnCode == 0
    ensures c.Exit? ==> c.outcome == Fail(errMessage) && ExitStatus(c.outcome) == 1
  {
    if returnCode != 0 then Exit(Fail(errMessage)) else Continue
  }

  /** `is_nvdimm`: a name containing "pmem" ends the run with the configured status. */
  function IsNvdimm(d: Disk): (c: Check)
    ensures c.Continue? <==> !Contains(d.diskName, NvdimmMarker)
    ensures c.Exit? ==> c.outcome == Skip(d.status, "Disk " + d.diskName + " appears to be an NVDIMM, skipping")
    ensures c.Exit? ==> ExitStatus(c.outcome) == d.status
  {
    if Contains(d.diskName, NvdimmMarker) then
      Exit(Skip(d.status, "Disk " + d.diskName + " appears to be an NVDIMM, skipping"))
    else
      Continue
  }

  /** Some line contains `name` (Python's `name in line`). */
  predicate AnyLineContains(lines: seq<string>, name: string)
  {
    exists k :: 0 <= k < |lines| && Contains(lines[k], name)
  }

  /** What `disk_in_file` decides for one file; `DiskInFile` computes it with the script's loop. */
  function FileCheck(d: Disk, path: string, file: Option<seq<string>>, message: string): Check
  {
    match file
    case None => CheckReturnCode(1, "Error: " + path + " not found")
    case Some(lines) =>
      if AnyLineContains(lines, d.diskName) then Continue else CheckReturnCode(1, message)
  }

  /**
   * `disk_in_file`: scans the lines in order and lets the run go on at the
   * first line containing the disk name; a file with no such line fails with
   * the caller's message, a missing file with "Error: <path> not found".
   */
  method DiskInFile(d: Disk, path: string, file: Option<seq<string>>, message: string) returns (c: Check)
    ensures c == FileCheck(d, path, file, message)
    ensures c.Continue? <==> file.Some? && AnyLineContains(file.value, d.diskName)
    ensures file.None? ==> c == Exit(Fail("Error: " + path + " not found"))
    ensures file.Some? && c.Exit? ==> c == Exit(Fail(message))
  {
    if file.None? {
      c := CheckReturnCode(1, "Error: " + path + " not found");
      return;
    }
    var lines := file.value;
    var k := 0;
    while k < |lines|
      invariant 0 <= k <= |lines|
      invariant forall j :: 0 <= j < k ==> !Contains(lines[j], d.diskName)
    {
      if Contains(lines[k], d.diskName) {
        return Continue;
      }
      k := k + 1;
    }
    c := CheckReturnCode(1, message);
  }

  /** `block_exists`: the /sys/block/<name> entry must exist. */
  function BlockExists(d: Disk, present: bool): (c: Check)
    ensures c.Continue? <==> present
    ensures c.Exit? ==> c.outcome == Fail("Disk " + d.diskName + " not found in /sys/block")
  {
    if present then Continue else CheckReturnCode(1, "Disk " + d.diskName + " not found in /sys/block")
  }

  /**
   * `block_stat_not_empty`: the stat file must have a positive size; an empty
   * file and a missing one fail with different messages.
   */
  function BlockStatNotEmpty(d: Disk, size: Option<nat>): (c: Check)
    ensures c.Continue? <==> size.Some? && size.value > 0
    ensures size == Some(0) ==> c == Exit(Fail("stat is either empty or nonexistant in " + StatPath(d)))
    ensures size.None? ==> c == Exit(Fail("Error: " + StatPath(d) + " not found"))
  {
    match size
    case None => CheckReturnCode(1, "Error: " + StatPath(d) + " not found")
    case Some(n) =>
      if n > 0 then Continue
      else CheckReturnCode(1, "stat is either empty or nonexistant in " + StatPath(d))
  }

  // ---------------------------------------------------------------- validation

  /** `checks[k]` is the first check in the list that ends the run. */
  predicate IsFirstUnmet(checks: seq<Check>, k: int)
  {
    0 <= k < |checks| && checks[k].Exit? && forall j :: 0 <= j < k ==> checks[j].Continue?
  }

  /** Runs checks in order: the first one that ends the run decides; none does, the run goes on. */
  function FirstUnmet(checks: seq<Check>): (c: Check)
    ensures c.Continue? <==> forall k :: 0 <= k < |checks| ==> checks[k].Continue?
    ensures c.Exit? ==> exists k :: IsFirstUnmet(checks, k) && checks[k] == c
  {
    if |checks| == 0 then Continue
    else if checks[0].Exit? then checks[0]
    else
      var rest := FirstUnmet(checks[1..]);
      if rest.Exit? then
        var k :| IsFirstUnmet(checks[1..], k) && checks[1..][k] == rest;
        assert IsFirstUnmet(checks, k + 1);
        rest
      else
        rest
  }

  /** The first unmet check is the one that decides. */
  lemma FirstUnmetAt(checks: seq<Check>, k: int)
    requires IsFirstUnmet(checks, k)
    ensures FirstUnmet(checks) == checks[k]
  {
  }

  /** The files `run_validate` searches for the disk name, in the order of its dictionary. */
  function FileTable(env: Env): seq<(string, Option<seq<string>>)>
  {
    [(PartitionsPath, env.partitions), (DiskstatsPath, env.diskstats)]
  }

  /** The checks of `run_validate`, in the order it makes them. */
  function ValidationChecks(d: Disk, env: Env): seq<Check>
  {
    [ IsNvdimm(d),
      FileCheck(d, PartitionsPath, env.partitions, NotFoundMessage(d, PartitionsPath)),
      FileCheck(d, DiskstatsPath, env.diskstats, NotFoundMessage(d, DiskstatsPath)),
      BlockExists(d, env.blockExists),
      BlockStatNotEmpty(d, env.statSize) ]
  }

  /** What `run_validate` decides. */
  function Validation(d: Disk, env: Env): Check
  {
    FirstUnmet(ValidationChecks(d, env))
  }

  /**
   * `run_validate`: the NVDIMM check, then the loop over /proc/partitions and
   * /proc/diskstats, then the /sys/block entry and its stat file; the first
   * unmet check ends the run.
   */
  method RunValidate(d: Disk, env: Env) returns (c: Check)
    ensures c == Validation(d, env)
    ensures c.Exit? ==> exists k :: IsFirstUnmet(ValidationChecks(d, env), k) && c == ValidationChecks(d, env)[k]
    ensures c.Continue? <==> forall k :: 0 <= k < 5 ==> ValidationChecks(d, env)[k].Continue?
  {
    ghost var checks := ValidationChecks(d, env);
    c := IsNvdimm(d);
    if c.Exit? {
      FirstUnmetAt(checks, 0);
      return;
    }
    var table := FileTable(env);
    var i := 0;
    while i < |table|
      invariant 0 <= i <= |table|
      invariant forall j :: 0 <= j < 1 + i ==> checks[j].Continue?
    {
      var (path, file) := table[i];
      c := DiskInFile(d, path, file, NotFoundMessage(d, path));
      assert c == checks[1 + i];
      if c.Exit? {
        FirstUnmetAt(checks, 1 + i);
        return;
      }
      i := i + 1;
    }
    c := BlockExists(d, env.blockExists);
    if c.Exit? {
      FirstUnmetAt(checks, 3);
      return;
    }
    c := BlockStatNotEmpty(d, env.statSize);
    if c.Exit? {
      FirstUnmetAt(checks, 4);
    }
  }

  // ---------------------------------------------------------------- statistics

  /** `lines[k]` is the first line, in file order, that contains `name`. */
  predicate IsFirstMatch(lines: seq<string>, name: string, k: int)
  {
    0 <= k < |lines| && Contains(lines[k], name) && forall j :: 0 <= j < k ==> !Contains(lines[j], name)
  }

  /** The index of the first line containing `name`, if any. */
  function FirstMatch(lines: seq<string>, name: string): (r: Option<nat>)
    ensures r.Some? ==> IsFirstMatch(lines, name, r.value)
    ensures r.None? <==> !AnyLineContains(lines, name)
  {
    if |lines| == 0 then None
    else if Contains(lines[0], name) then Some(0)
    else
      match FirstMatch(lines[1..], name)
      case None => None
      case Some(k) =>
        assert lines[1..][k] == lines[k + 1];
        Some(k + 1)
  }

  /** The line `proc_stats` returns; `None` is Python's implicit `None` when no line matches. */
  function Snapshot(lines: seq<string>, name: string): Option<string>
  {
    match FirstMatch(lines, name)
    case None => None
    case Some(k) => Some(lines[k])
  }

  /**
   * `proc_stats`: the first line of /proc/diskstats that contains the disk
   * name. A name that is a prefix of another device's name matches whichever
   * of their lines comes first.
   */
  method ProcStats(d: Disk, lines: seq<string>) returns (line: Option<string>)
    ensures line == Snapshot(lines, d.diskName)
    ensures line.None? <==> !AnyLineContains(lines, d.diskName)
    ensures line.Some? ==> exists k :: IsFirstMatch(lines, d.diskName, k) && line.value == lines[k]
  {
    var k := 0;
    while k < |lines|
      invariant 0 <= k <= |lines|
      invariant forall j :: 0 <= j < k ==> !Contains(lines[j], d.diskName)
    {
      if Contains(lines[k], d.diskName) {
        assert IsFirstMatch(lines, d.diskName, k);
        return Some(lines[k]);
      }
      k := k + 1;
    }
    return None;
  }

  /** `generate_activity`: hdparm must be installed and exit with status 0. */
  function GenerateActivity(run: HdparmRun): (c: Check)
    ensures c.Continue? <==> run == Succeeded
    ensures run == NonZeroExit ==> c == Exit(Fail("ERROR: hdparm execution failed"))
    ensures run == NotInstalled ==> c == Exit(Fail("ERROR: hdparm not found, please install before retrying"))
  {
    match run
    case Succeeded => Continue
    case NonZeroExit => CheckReturnCode(1, "ERROR: hdparm execution failed")
    case NotInstalled => CheckReturnCode(1, "ERROR: hdparm not found, please install before retrying")
  }

  /**
   * The comparison ending `collect_statistics`: an unchanged /proc/diskstats
   * line fails first, whatever the stat file did; then an unchanged stat
   * file fails; otherwise the run passes naming the disk.
   */
  function Compare(d: Disk, procBegin: Option<string>, procEnd: Option<string>,
                   sysBegin: string, sysEnd: string): (o: Outcome)
    ensures procBegin == procEnd ==> o == Fail("Stats in /proc/diskstats did not change")
    ensures procBegin != procEnd && sysBegin == sysEnd ==> o == Fail("Stats in " + StatPath(d) + " did not change")
    ensures o.Pass? <==> procBegin != procEnd && sysBegin != sysEnd
    ensures o.Pass? ==> o == Pass("PASS: Finished testing stats for " + d.diskName)
    ensures !o.Skip?
  {
    if procBegin == procEnd then
      CheckReturnCode(1, "Stats in /proc/diskstats did not change").outcome
    else if sysBegin == sysEnd then
      CheckReturnCode(1, "Stats in " + StatPath(d) + " did not change").outcome
    else
      Pass("PASS: Finished testing stats for " + d.diskName)
  }

  /** What `collect_statistics` decides. */
  function Statistics(d: Disk, env: Env): Outcome
  {
    match GenerateActivity(env.hdparm)
    case Exit(o) => o
    case Continue =>
      Compare(d, Snapshot(env.procBefore, d.diskName), Snapshot(env.procAfter, d.diskName),
              env.sysBefore, env.sysAfter)
  }

  /**
   * `collect_statistics`: snapshot, generate activity, snapshot again and
   * compare. The wait between the two snapshots is not modelled.
   */
  method CollectStatistics(d: Disk, env: Env) returns (o: Outcome)
    ensures o == Statistics(d, env)
    ensures o.Pass? <==> env.hdparm == Succeeded
                         && Snapshot(env.procBefore, d.diskName) != Snapshot(env.procAfter, d.diskName)
                         && env.sysBefore != env.sysAfter
  {
    var procBegin := ProcStats(d, env.procBefore);
    var sysBegin := env.sysBefore;
    var activity := GenerateActivity(env.hdparm);
    if activity.Exit? {
      return activity.outcome;
    }
    var procEnd := ProcStats(d, env.procAfter);
    var sysEnd := env.sysAfter;
    o := Compare(d, procBegin, procEnd, sysBegin, sysEnd);
  }

  // ---------------------------------------------------------------- whole run

  /** The outcome of validating and then collecting statistics for one disk. */
  function Run(d: Disk, env: Env): Outcome
  {
    match Validation(d, env)
    case Exit(o) => o
    case Continue => Statistics(d, env)
  }

  /**
   * The outcome of `main` for the `--disk-name` argument `arg`, with the
   * default skip status and the name as line 167 computes it.
   */
  function MainResult(arg: Option<string>, env: Env): Outcome
  {
    Run(Disk(DiskNameAsWritten(arg), DefaultStatus), env)
  }

  /** The outcome `main` would have with the name normalised as the comment at line 166 intends. */
  function MainResultIntended(arg: Option<string>, env: Env): Outcome
  {
    Run(Disk(DiskName(arg), DefaultStatus), env)
  }

  /** `main`: normalise the name, build the `Disk`, validate, then collect statistics. */
  method RunMain(arg: Option<string>, env: Env) returns (o: Outcome)
    ensures o == MainResult(arg, env)
    ensures arg.None? ==> o == Run(Disk(DefaultDiskName, DefaultStatus), env)
    ensures arg.Some? ==> o == Run(Disk(Strip(arg.value, DevChars), DefaultStatus), env)
  {
    var disk := Disk(DiskNameAsWritten(arg), DefaultStatus);
    var validated := RunValidate(disk, env);
    if validated.Exit? {
      return validated.outcome;
    }
    o := CollectStatistics(disk, env);
  }
}

=== FILE: disk_stats_properties.dfy ===
/**
 * Properties of the disk validator: which outcome a run ends with, for which
 * inputs, and in which order the checks decide it; and what the disk-name
 * normalisation of `main` does to the names it is given.
 */
module DiskStatsProperties {
  import opened PyStrings
  import opened DiskStats

  // ---------------------------------------------------------------- validation order

  /** Whichever check is the first unmet one ends the run with its own outcome. */
  lemma ValidationOrder(d: Disk, env: Env, k: int)
    requires IsFirstUnmet(ValidationChecks(d, env), k)
    ensures Run(d, env) == ValidationChecks(d, env)[k].outcome
  {
  }

  /**
   * Only the NVDIMM check can skip and no check can pass: a run that
   * validation stops is a skip exactly when the name contains "pmem".
   */
  lemma ValidationNeverPasses(d: Disk, env: Env)
    ensures Validation(d, env).Exit? ==> !Validation(d, env).outcome.Pass?
    ensures Validation(d, env).Exit? ==>
              (Validation(d, env).outcome.Skip? <==> Contains(d.diskName, NvdimmMarker))
  {
  }

  /** A name containing "pmem" ends the run with the configured status, whatever the files say. */
  lemma NvdimmSkipsRegardless(d: Disk, env: Env)
    requires Contains(d.diskName, NvdimmMarker)
    ensures Run(d, env) == Skip(d.status, "Disk " + d.diskName + " appears to be an NVDIMM, skipping")
    ensures ExitStatus(Run(d, env)) == d.status
  {
  }

  /**
   * Skipping is not failing: a run skips exactly for an NVDIMM name and then
   * exits with the configured status; every other run exits 0 on a pass and
   * 1 on a failure.
   */
  lemma SkipOnlyForNvdimm(d: Disk, env: Env)
    ensures Run(d, env).Skip? <==> Contains(d.diskName, NvdimmMarker)
    ensures Run(d, env).Skip? ==> ExitStatus(Run(d, env)) == d.status
    ensures !Run(d, env).Skip? ==> ExitStatus(Run(d, env)) == (if Run(d, env).Pass? then 0 else 1)
  {
  }

  /**
   * A name missing from /proc/partitions, or a missing /proc/partitions,
   * fails the run before anything after it is looked at: the outcome does
   * not depend on /proc/diskstats, /sys/block, hdparm or the snapshots.
   */
  lemma AbsentFromPartitionsFails(d: Disk, env: Env)
    requires !Contains(d.diskName, NvdimmMarker)
    requires env.partitions.None? || !AnyLineContains(env.partitions.value, d.diskName)
    ensures env.partitions.None? ==> Run(d, env) == Fail("Error: " + PartitionsPath + " not found")
    ensures env.partitions.Some? ==> Run(d, env) == Fail(NotFoundMessage(d, PartitionsPath))
  {
    var checks := ValidationChecks(d, env);
    assert checks[0].Continue?;
    assert checks[1].Exit?;
    ValidationOrder(d, env, 1);
  }

  /**
   * Once validation stops a run, nothing the later stages would see matters:
   * any environment that agrees on the four validated sources ends the same.
   */
  lemma ValidationFailureDecides(d: Disk, env: Env, env': Env)
    requires Validation(d, env).Exit?
    requires env'.partitions == env.partitions && env'.diskstats == env.diskstats
    requires env'.blockExists == env.blockExists && env'.statSize == env.statSize
    ensures Run(d, env') == Run(d, env) == Validation(d, env).outcome
  {
  }

  /**
   * A run passes exactly when every check holds, hdparm succeeds, and both
   * the /proc/diskstats line and the stat file changed.
   */
  lemma RunPassesIff(d: Disk, env: Env)
    ensures Run(d, env).Pass? <==>
              && !Contains(d.diskName, NvdimmMarker)
              && env.partitions.Some? && AnyLineContains(env.partitions.value, d.diskName)
              && env.diskstats.Some? && AnyLineContains(env.diskstats.value, d.diskName)
              && env.blockExists
              && env.statSize.Some? && env.statSize.value > 0
              && env.hdparm == Succeeded
              && Snapshot(env.procBefore, d.diskName) != Snapshot(env.procAfter, d.diskName)
              && env.sysBefore != env.sysAfter
  {
    ValidationNeverPasses(d, env);
    var checks := ValidationChecks(d, env);
    assert checks[1].Continue? <==> env.partitions.Some? && AnyLineContains(env.partitions.value, d.diskName);
    assert checks[2].Continue? <==> env.diskstats.Some? && AnyLineContains(env.diskstats.value, d.diskName);
    assert Validation(d, env).Continue? <==>
             checks[0].Continue? && checks[1].Continue? && checks[2].Continue? && checks[3].Continue? && checks[4].Continue?;
  }

  // ---------------------------------------------------------------- snapshots

  /** The snapshot of a line list is its first line containing the name. */
  lemma SnapshotPicksFirst(lines: seq<string>, name: string, k: int)
    requires IsFirstMatch(lines, name, k)
    ensures Snapshot(lines, name) == Some(lines[k])
  {
  }

  /**
   * "sda" is a prefix of "sda1": when the partition's line comes first in
   * /proc/diskstats, the snapshot for "sda" is the partition's line.
   */
  lemma PrefixNameMatchesFirstLine()
    ensures Snapshot(["   8       1 sda1 50 0 420 9", "   8       0 sda 900 3 8000 40"], "sda")
            == Some("   8       1 sda1 50 0 420 9")
  {
    var lines := ["   8       1 sda1 50 0 420 9", "   8       0 sda 900 3 8000 40"];
    assert OccursAt(lines[0], "sda", 13);
    SnapshotPicksFirst(lines, "sda", 0);
  }

  // ---------------------------------------------------------------- end to end

  /** An environment in which "sda" is present everywhere, hdparm works and both sources change. */
  function HealthySda(): Env
  {
    Env(
      partitions := Some(["major minor  #blocks  name", "   8        0  488386584 sda"]),
      diskstats := Some(["   8       0 sda 900 3 8000 40"]),
      blockExists := true,
      statSize := Some(150),
      procBefore := ["   8       0 sda 900 3 8000 40"],
      sysBefore := "     900        3     8000       40",
      hdparm := Succeeded,
      procAfter := ["   8       0 sda 960 3 9000 44"],
      sysAfter := "     960        3     9000       44")
  }

  /** The disk "sda" passes in a healthy system. */
  lemma HealthySdaPasses()
    ensures Run(Disk(DefaultDiskName, DefaultStatus), HealthySda()) == Pass("PASS: Finished testing stats for sda")
  {
    var env := HealthySda();
    var d := Disk(DefaultDiskName, DefaultStatus);
    assert !Contains(d.diskName, NvdimmMarker);
    assert OccursAt(env.partitions.value[1], "sda", 25);
    assert AnyLineContains(env.partitions.value, "sda");
    assert OccursAt(env.diskstats.value[0], "sda", 13);
    assert AnyLineContains(env.diskstats.value, "sda");
    SnapshotPicksFirst(env.procBefore, "sda", 0);
    assert OccursAt(env.procAfter[0], "sda", 13);
    SnapshotPicksFirst(env.procAfter, "sda", 0);
    RunPassesIff(d, env);
  }

  /** With no argument, the default disk "sda" in a healthy system passes and exits 0. */
  lemma DefaultSdaPasses()
    ensures MainResult(None, HealthySda()) == Pass("PASS: Finished testing stats for sda")
    ensures ExitStatus(MainResult(None, HealthySda())) == 0
  {
    assert DiskNameAsWritten(None) == DefaultDiskName;
    HealthySdaPasses();
    var o := MainResult(None, HealthySda());
    assert o == Pass("PASS: Finished testing stats for sda");
    assert ExitStatus(o) == 0;
  }

  /** "pmem0" skips with the default status 0, whatever the system looks like. */
  lemma Pmem0Skips(env: Env)
    ensures MainResult(Some("pmem0"), env) == Skip(0, "Disk " + "pmem0" + " appears to be an NVDIMM, skipping")
    ensures ExitStatus(MainResult(Some("pmem0"), env)) == 0
  {
    assert OccursAt("pmem0", "pmem0", 0);
    StripUnique("pmem0", DevChars, 0, "pmem0");
    assert OccursAt("pmem0", NvdimmMarker, 0);
    NvdimmSkipsRegardless(Disk("pmem0", DefaultStatus), env);
  }

  // ---------------------------------------------------------------- disk names

  /**
   * Line 167 as written strips the characters '/', 'd', 'e', 'v' from both
   * ends, so names that begin or end with them are mangled: "/dev/vdd"
   * becomes the empty name.
   */
  lemma StripEmptiesVdd()
    ensures DiskNameAsWritten(Some("/dev/vdd")) == ""
  {
  }

  /** As written, "/dev/sdd" loses its last letter as well as its "/dev/". */
  lemma StripTruncatesSdd()
    ensures DiskNameAsWritten(Some("/dev/sdd")) == "s"
  {
    var arg := "/dev/sdd";
    assert arg[5..6] == "s";
    assert OccursAt(arg, "s", 5);
    StripsTo(arg, 5, "s");
  }

  /** As written, the virtio disk name "vda" becomes "a" even without "/dev/". */
  lemma StripTruncatesVda()
    ensures DiskNameAsWritten(Some("vda")) == "a"
  {
  }

  /** Helper: `name` is what line 167 makes of `arg` when `name` sits at `i` in it. */
  lemma StripsTo(arg: string, i: int, name: string)
    requires OccursAt(arg, name, i)
    requires forall k :: 0 <= k < i ==> arg[k] in DevChars
    requires forall k :: i + |name| <= k < |arg| ==> arg[k] in DevChars
    requires name == [] || (name[0] !in DevChars && name[|name| - 1] !in DevChars)
    ensures DiskNameAsWritten(Some(arg)) == name
  {
  }

  /** The intended normalisation removes exactly a leading "/dev/" and keeps any other name. */
  lemma DiskNameRemovesDevPrefix(name: string)
    ensures DiskName(Some(DevPrefix + name)) == name
    ensures !(DevPrefix <= name) ==> DiskName(Some(name)) == name
  {
  }

  /**
   * Where stripping is harmless, the two normalisations agree: a name that
   * neither begins nor ends with '/', 'd', 'e' or 'v' comes out unchanged, with
   * or without a "/dev/" in front.
   */
  lemma NormalisationsAgree(name: string)
    requires name == [] || (name[0] !in DevChars && name[|name| - 1] !in DevChars)
    ensures DiskNameAsWritten(Some(name)) == DiskName(Some(name)) == name
    ensures DiskNameAsWritten(Some(DevPrefix + name)) == DiskName(Some(DevPrefix + name)) == name
  {
    DiskNameRemovesDevPrefix(name);
    assert OccursAt(name, name, 0);
    StripUnique(name, DevChars, 0, name);
    var s := DevPrefix + name;
    assert OccursAt(s, name, |DevPrefix|);
    forall k | 0 <= k < |DevPrefix| ensures s[k] in DevChars {
      assert s[k] == DevPrefix[k];
    }
    StripUnique(s, DevChars, |DevPrefix|, name);
  }

  /**
   * `main` as written and `main` as intended agree on every argument that
   * neither begins nor ends with '/', 'd', 'e' or 'v', with or without "/dev/".
   */
  lemma MainAgreesOnPlainNames(name: string, env: Env)
    requires name == [] || (name[0] !in DevChars && name[|name| - 1] !in DevChars)
    ensures MainResult(Some(name), env) == MainResultIntended(Some(name), env)
    ensures MainResult(Some(DevPrefix + name), env) == MainResultIntended(Some(DevPrefix + name), env)
  {
    NormalisationsAgree(name);
  }

  /**
   * On "vda" the two part ways: `main` as written validates and measures the
   * disk "a", while the intended normalisation keeps "vda".
   */
  lemma MainChecksWrongDiskForVda(env: Env)
    ensures MainResult(Some("vda"), env) == Run(Disk("a", DefaultStatus), env)
    ensures MainResultIntended(Some("vda"), env) == Run(Disk("vda", DefaultStatus), env)
  {
    StripTruncatesVda();
    assert "vda"[0] != DevPrefix[0];
  }
}

=== FILE: py_strings.dfy ===
/**
 * The two Python string operations the disk validator depends on:
 * substring containment (`sub in s`) and `str.strip(chars)`, which removes
 * characters drawn from a SET at both ends (it does not remove a prefix).
 */
module PyStrings {

  /** `sub` occurs in `s` starting at index `i`. */
  predicate OccursAt(s: string, sub: string, i: int)
  {
    0 <= i && i + |sub| <= |s| && s[i..i + |sub|] == sub
  }

  /** Python's `sub in s` for strings. The empty string is in every string. */
  predicate Contains(s: string, sub: string)
  {
    exists i :: 0 <= i <= |s| - |sub| && OccursAt(s, sub, i)
  }

  /**
   * What `sub in s` promises: the empty string is in every string, a string
   * glued between any two others is in the result, and nothing longer than
   * `s` is in `s`.
   */
  lemma ContainsSubstring(s: string, sub: string, before: string, after: string)
    ensures Contains(s, [])
    ensures Contains(before + sub + after, sub)
    ensures Contains(s, sub) ==> |sub| <= |s|
  {
    assert OccursAt(s, [], 0);
    var t := before + sub + after;
    assert t[|before|..|before| + |sub|] == sub;
    assert OccursAt(t, sub, |before|);
  }

  /** Python's `s.lstrip(chars)`: drops the longest prefix made of characters in `chars`. */
  function StripLeading(s: string, chars: set<char>): (r: string)
    ensures |r| <= |s| && r == s[|s| - |r|..]
    ensures forall k :: 0 <= k < |s| - |r| ==> s[k] in chars
    ensures r == [] || r[0] !in chars
  {
    if |s| > 0 && s[0] in chars then StripLeading(s[1..], chars) else s
  }

  /** Python's `s.rstrip(chars)`: drops the longest suffix made of characters in `chars`. */
  function StripTrailing(s: string, chars: set<char>): (r: string)
    ensures |r| <= |s| && r == s[..|r|]
    ensures forall k :: |r| <= k < |s| ==> s[k] in chars
    ensures r == [] || r[|r| - 1] !in chars
  {
    if |s| > 0 && s[|s| - 1] in chars then StripTrailing(s[..|s| - 1], chars) else s
  }

  /**
   * Python's `s.strip(chars)`. The result is a contiguous slice of `s`;
   * everything cut away on either side is in `chars`, and neither end of
   * the result is in `chars`.
   */
  function Strip(s: string, chars: set<char>): (r: string)
    ensures exists i :: OccursAt(s, r, i)
                        && (forall k :: 0 <= k < i ==> s[k] in chars)
                        && (forall k :: i + |r| <= k < |s| ==> s[k] in chars)
    ensures r == [] || (r[0] !in chars && r[|r| - 1] !in chars)
  {
    var t := StripLeading(s, chars);
    var r := StripTrailing(t, chars);
    TrimmedSlice(s, t, r, chars);
    r
  }

  /** Helper: a prefix `r` of a suffix `t` of `s`, cut only at `chars`, is a slice of `s` cut only at `chars`. */
  lemma TrimmedSlice(s: string, t: string, r: string, chars: set<char>)
    requires |t| <= |s| && t == s[|s| - |t|..]
    requires forall k :: 0 <= k < |s| - |t| ==> s[k] in chars
    requires |r| <= |t| && r == t[..|r|]
    requires forall k :: |r| <= k < |t| ==> t[k] in chars
    ensures exists i :: OccursAt(s, r, i)
                        && (forall k :: 0 <= k < i ==> s[k] in chars)
                        && (forall k :: i + |r| <= k < |s| ==> s[k] in chars)
  {
    var i := |s| - |t|;
    assert s[i..i + |r|] == r;
    forall k | i + |r| <= k < |s|
      ensures s[k] in chars
    {
      assert s[k] == t[k - i];
    }
    assert OccursAt(s, r, i);
  }

  /**
   * The contract of Strip determines its result: any slice of `s` that
   * leaves only `chars` outside it and has no character of `chars` at either
   * end is the stripped string.
   */
  lemma StripUnique(s: string, chars: set<char>, i: int, r: string)
    requires OccursAt(s, r, i)
    requires forall k :: 0 <= k < i ==> s[k] in chars
    requires forall k :: i + |r| <= k < |s| ==> s[k] in chars
    requires r == [] || (r[0] !in chars && r[|r| - 1] !in chars)
    ensures Strip(s, chars) == r
  {
  }

  /** Stripping twice with the same characters changes nothing the second time. */
  lemma StripIdempotent(s: string, chars: set<char>)
    ensures Strip(Strip(s, chars), chars) == Strip(s, chars)
  {
  }
}
